=== FILE: README.md ===
# Serverless thumbnail generator — Dafny model

This project models the logic of the upload-triggered thumbnail generator in
`thumbnail-generation/handler.py`. When an object lands in a bucket, the handler
first checks whether the key already names a thumbnail. If it does not, the
handler:

1. fetches the object;
2. crops and scales it to a fixed square;
3. stores a PNG in the same bucket under a derived key;
4. writes one record holding the thumbnail URL, an approximate-size string
   derived from the original size, an id and two timestamps. The model's
   record write carries the URL and the original size (see "Left out").

Two pieces are modelled and proved:

- **Naming policy** (`Naming`). `new_filename` keeps `key.rsplit('.', 1)[0]`,
  the text before the last `.` of the whole key, and appends `_thumbnail.png`.
  The split follows Python's `rsplit` exactly (`Text.RSplitOnce`). So `a.b/c`
  becomes `a_thumbnail.png`, and a key without a dot keeps all of itself.
- **Pipeline decision** (`Pipeline`). The handler is a pure function `Handle`.
  It maps a typed upload event `(bucket, key, size)` to the foreign calls it
  issues (`Fetch`, `Store`, `Persist`) and to how the invocation ends.
  - It ends `Skipped` when guarded; Python returns `None` there.
  - It ends `Uploaded(url)` on success.
  - It ends `Raised(fault)` when a foreign call raises. The handler has no
    `try`, so the first exception aborts the invocation. Which call raises is
    given by the `fault` parameter.

The main result is loop freedom (`Pipeline.FollowUpIsSkipped`). The only object
the handler writes has a key ending in `_thumbnail.png`. The upload
notification for that object is therefore guarded and produces no calls, so
one upload causes at most one generation.

The S3 endpoint URL is taken as an opaque string parameter. The other
configuration read from the environment (handler.py:10-12) is left out; see
below.

Modules:

- `Wrappers`: the `Option` type.
- `Text`: `endswith`, last-index search, `rsplit(sep, 1)` and `join`.
- `Naming`: `new_filename`.
- `Pipeline`: events, effects, `upload_to_s3` and `s3_thumbnail_generator`.

## Model

| member | source | states |
|---|---|---|
| Text.LastIndexOf | thumbnail-generation/handler.py:29 | returns None exactly when the character does not occur; otherwise returns a position holding it with no occurrence after it, so it is the last occurrence |
| Text.EndsWith | thumbnail-generation/handler.py:82 | `endswith` holds exactly when the suffix fits and matches the key's last characters one by one; the key is then the rest followed by the suffix |
| Text.RSplitOnce | thumbnail-generation/handler.py:29 | `rsplit(sep, 1)` gives one part, the input itself, exactly when `sep` does not occur. Otherwise it gives two parts, `before + sep + after == s`, with no `sep` in `after` |
| Text.RSplitJoin | thumbnail-generation/handler.py:29 | joining the parts of `rsplit(sep, 1)` with `sep` gives back the original key |
| Text.RSplitAtLast | thumbnail-generation/handler.py:29 | the split is unique: any decomposition `a + sep + b` with no `sep` in `b` is the one `rsplit` returns |
| Naming.NewFilename | thumbnail-generation/handler.py:28-30 | every generated key ends with `_thumbnail.png`, and what precedes the suffix is a prefix of the original key |
| Naming.BaseName | thumbnail-generation/handler.py:29 | `key.rsplit('.', 1)[0]` is a prefix of the key. It is the whole key when there is no dot. Otherwise it is followed in the key by a dot, and no dot comes after that one |
| Naming.NewFilenameWithoutDot | thumbnail-generation/handler.py:29-30 | a key with no `.` becomes exactly `key + "_thumbnail.png"` |
| Naming.NewFilenameAtLastDot | thumbnail-generation/handler.py:29-30 | if the last `.` is at `i`, the result is `key[..i] + "_thumbnail.png"`; the dropped tail is a dot followed by dot-free text |
| Naming.NewFilenameWithDot | thumbnail-generation/handler.py:29-30 | every key containing a `.` has a last dot at some `i`, and the policy cuts the key there |
| Naming.NewFilenameLength | thumbnail-generation/handler.py:29-30 | the kept base is a prefix of the key; the result is the base plus 14 characters, so at most 14 characters longer than the key |
| Naming.NewFilenameOfParts | thumbnail-generation/handler.py:29-30 | a key written as `base + "." + ext` with no dot in `ext` becomes exactly `base + "_thumbnail.png"` |
| Naming.PhotoExample | thumbnail-generation/handler.py:28-30 | `photo.jpg` becomes `photo_thumbnail.png` |
| Naming.ArchiveExample | thumbnail-generation/handler.py:28-30 | `archive.tar.gz` becomes `archive.tar_thumbnail.png`: only the last extension is dropped |
| Naming.DirectoryDotExample | thumbnail-generation/handler.py:28-30 | `a.b/c` becomes `a_thumbnail.png`: the last dot may sit in the directory part |
| Naming.CatKeyExample | thumbnail-generation/handler.py:28-30 | `images/cat.jpg` becomes `images/cat_thumbnail.png` and is not itself a thumbnail key |
| Pipeline.ThumbnailUrl | thumbnail-generation/handler.py:48 | the recorded URL starts with the endpoint and ends with `"/" + key` |
| Pipeline.ThumbnailUrlInjective | thumbnail-generation/handler.py:48 | for a fixed endpoint and bucket, distinct thumbnail keys get distinct URLs |
| Pipeline.IsThumbnailKey | thumbnail-generation/handler.py:82 | the reprocessing guard holds exactly when the key is some text followed by the guard's `_thumbnail.png` literal |
| Pipeline.GuardMatchesNaming | thumbnail-generation/handler.py:30 | the literal the guard tests (line 82) and the suffix the naming policy appends (line 30) are the same text, which loop freedom depends on |
| Pipeline.UploadToStore | thumbnail-generation/handler.py:33-52 | at most one PNG, public-read write to the given bucket and key, and at most one record write. The record write comes after the object write. It is absent when encoding or the write raises. The result is the URL exactly when no upload call raised, and a raised outcome names the fault that occurred |
| Pipeline.Generate | thumbnail-generation/handler.py:83-90 | past the guard: exactly one fetch, of the notified object, and it comes first. An object write is issued exactly when the fetch, decoding and encoding did not raise, to the same bucket under `new_filename(key)`. A record write is issued exactly when none of those steps nor the object write raised, and never without an object write. The run ends with an exception exactly when some call raised, and it names that fault |
| Pipeline.Handle | thumbnail-generation/handler.py:75-90 | no calls and a `None` result exactly when the key ends with `_thumbnail.png`. Otherwise: exactly one fetch, of the notified object, issued first. One object write exactly when the fetch, decoding and encoding did not raise, to the same bucket under `new_filename(key)`. At most one record (its URL and the event's size), never without an object write. The run ends with an exception exactly when some call raised |
| Pipeline.FollowUpIsSkipped | thumbnail-generation/handler.py:82-88 | loop freedom: the notification for any object the handler stores produces no calls and a `None` result, whatever its size, the endpoint or the faults |
| Pipeline.SuccessfulInvocation | thumbnail-generation/handler.py:82-90 | an unguarded run with no fault makes exactly `Fetch(bucket, key)`, `Store(bucket, new_filename(key), image/png, public-read)`, `Persist(url, size)` and returns `url`, which ends with `"/" + new_filename(key)` |
| Pipeline.RecordOnlyAfterStore | thumbnail-generation/handler.py:39-50 | a record write is issued exactly when the key is unguarded and neither the fetch, the image work nor the object write raised. It directly follows the object write it describes. The record write succeeded, and the URL is returned, exactly when the key is unguarded and nothing raised |
| Pipeline.StoreOnlyAfterImageWork | thumbnail-generation/handler.py:82-88 | an object write is issued exactly when the key is unguarded and neither the fetch, the decoding nor the encoding raised: a failure before the write aborts the run |
| Pipeline.ThumbnailNeverOverwritesSource | thumbnail-generation/handler.py:82-86 | the object written never has the key of the notified object |
| Pipeline.CatExample | thumbnail-generation/handler.py:75-90 | `images/cat.jpg` (50000 bytes) in bucket `b` fetches that object, stores `images/cat_thumbnail.png` in `b` as public-read PNG, records its URL with size 50000 and returns the URL |

## Left out

- Image decoding, `ImageOps.fit` with antialiased resampling and PNG encoding
  (handler.py:19-25, 36). These are an opaque image library with
  floating-point numerics. Their failure is modelled as the faults
  `DecodeFault` (open or fit) and `EncodeFault` (save).
- The approximate-size string `str(float(size * 0.53) / 1000) + " KB"`
  (handler.py:56, 62). It depends on Python's float formatting. A record
  carries the original byte size from which that string is derived.
- The record's `id` (`uuid4`), its timestamps (`datetime.now`) and the JSON
  response dict of `s3_save_thumbnail_url_to_dynamodb` (handler.py:60, 63-64,
  68-72). They are nondeterministic or library output, and `upload_to_s3`
  discards that response.
- The S3 and DynamoDB clients (handler.py:16-17, 39-45, 57-58). They appear
  only as the effect values `Fetch`, `Store` and `Persist`. Their failures
  appear as the `fault` parameter.
- Environment reads and client setup (handler.py:9-12). The endpoint URL is
  a parameter. The thumbnail size, table name and region do not affect any
  modelled value.
- Indexing into the raw event and the `print` calls (handler.py:76-80, 46).
  The model takes a typed event. A malformed event, which raises `KeyError`
  in Python, is not modelled. Only `Records[0]` is read, so any later record
  in a notification is ignored; the typed event reflects that.
- The record access endpoints (get by id, list all, delete). They are not
  part of this model.

## Notes

- The naming policy is usually described as replacing a key's extension. The
  code splits the whole key at its last dot, directory part included. This
  model follows the code.
- The attribute name the code writes for the size string is
  `approxRedycedSize`, spelled that way in the source. It is not modelled.

=== FILE: naming.dfy ===
/**
 The naming policy of the thumbnail generator: the thumbnail of object `key`
 is stored under the part of `key` before its last `.` followed by
 `_thumbnail.png`. The split follows `rsplit('.', 1)` literally, so the last
 dot may sit in a directory segment (`a.b/c` becomes `a_thumbnail.png`).
 */
module Naming {
  import opened Text

  /** Suffix every generated thumbnail key carries. */
  const ThumbnailSuffix: string := "_thumbnail.png"

  /** The part of `key` kept by the naming policy: `key.rsplit('.', 1)[0]`. */
  function BaseName(key: string): (base: string)
    ensures base <= key
    ensures '.' !in key ==> base == key
    ensures '.' in key ==> |base| < |key| && key[|base|] == '.' && '.' !in key[|base| + 1..]
  {
    RSplitOnce(key, '.')[0]
  }

  /** Key of the thumbnail generated for the object stored under `key`. */
  function NewFilename(key: string): (r: string)
    ensures EndsWith(r, ThumbnailSuffix)
    ensures r[..|r| - |ThumbnailSuffix|] <= key
  {
    BaseName(key) + ThumbnailSuffix
  }

  /** A key without a dot keeps all of itself and gains the suffix. */
  lemma NewFilenameWithoutDot(key: string)
    requires '.' !in key
    ensures NewFilename(key) == key + ThumbnailSuffix
  {
  }

  /**
   A key whose last dot is at `i` loses exactly the tail `key[i..]`: a dot
   followed by dot-free text.
   */
  lemma NewFilenameAtLastDot(key: string, i: nat)
    requires i < |key| && key[i] == '.' && '.' !in key[i + 1..]
    ensures NewFilename(key) == key[..i] + ThumbnailSuffix
  {
  }

  /** Every key that contains a dot has a last dot, and the policy cuts there. */
  lemma NewFilenameWithDot(key: string)
    requires '.' in key
    ensures exists i :: 0 <= i < |key| && key[i] == '.' && '.' !in key[i + 1..]
                        && NewFilename(key) == key[..i] + ThumbnailSuffix
  {
    var parts := RSplitOnce(key, '.');
    var i := |parts[0]|;
    assert key == parts[0] + ['.'] + parts[1];
    assert key[i + 1..] == parts[1];
    assert key[..i] == parts[0];
  }

  /**
   The kept base is a prefix of the key, so the new name is at most
   `|ThumbnailSuffix|` characters longer than the key.
   */
  lemma NewFilenameLength(key: string)
    ensures |NewFilename(key)| == |BaseName(key)| + |ThumbnailSuffix|
    ensures BaseName(key) <= key
    ensures |NewFilename(key)| <= |key| + |ThumbnailSuffix|
  {
  }

  /** A key made of a base, a dot and a dot-free extension keeps exactly the base. */
  lemma NewFilenameOfParts(base: string, ext: string)
    requires '.' !in ext
    ensures NewFilename(base + "." + ext) == base + ThumbnailSuffix
  {
    RSplitAtLast(base + "." + ext, '.', base, ext);
  }

  /** Worked example: a single extension is replaced. */
  lemma PhotoExample()
    ensures NewFilename("photo.jpg") == "photo" + "_thumbnail.png"
  {
    assert "photo" + "." + "jpg" == "photo.jpg";
    NewFilenameOfParts("photo", "jpg");
  }

  /** Worked example: only the last of several extensions is dropped. */
  lemma ArchiveExample()
    ensures NewFilename("archive.tar.gz") == "archive.tar" + "_thumbnail.png"
  {
    assert "archive.tar" + "." + "gz" == "archive.tar.gz";
    NewFilenameOfParts("archive.tar", "gz");
  }

  /** Worked example: the last dot lies in the directory part. */
  lemma DirectoryDotExample()
    ensures NewFilename("a.b/c") == "a" + "_thumbnail.png"
  {
    assert "a" + "." + "b/c" == "a.b/c";
    NewFilenameOfParts("a", "b/c");
  }

  /** Worked example: a key under a directory, which is not itself a thumbnail key. */
  lemma CatKeyExample()
    ensures NewFilename("images/cat.jpg") == "images/cat" + "_thumbnail.png"
    ensures !EndsWith("images/cat.jpg", ThumbnailSuffix)
  {
    assert "images/cat" + "." + "jpg" == "images/cat.jpg";
    NewFilenameOfParts("images/cat", "jpg");
    assert "images/cat.jpg"[0] != ThumbnailSuffix[0];
  }
}

=== FILE: pipeline.dfy ===
/**
 The upload-triggered thumbnail pipeline as a pure function from one upload
 notification to the calls it makes on the object store and the record table.

 A foreign call that raises (fetching the object, decoding or encoding the
 image, writing the object, writing the record) is chosen by the `fault`
 parameter; the handler has no `try`, so the first raised fault ends the
 invocation and is surfaced to the host. `effects` lists the calls issued on
 the object store and the record table, in order, including one that raised;
 decoding and encoding are not calls on either and appear only as faults.
 */
module Pipeline {
  import opened Wrappers
  import opened Text
  import opened Naming

  /** The fields of an upload notification the handler reads: bucket name, object key, object size in bytes. */
  datatype Event = Event(bucket: string, key: string, size: nat)

  /** A call on a foreign service. */
  datatype Effect =
    | Fetch(bucket: string, key: string)
    | Store(bucket: string, key: string, contentType: string, acl: string)
    | Persist(url: string, size: nat)
  {
    /** The kind of call, forgetting its arguments. */
    function CallKind(): Kind {
      match this
      case Fetch(_, _) => FetchCall
      case Store(_, _, _, _) => StoreCall
      case Persist(_, _) => PersistCall
    }
  }

  datatype Kind = FetchCall | StoreCall | PersistCall

  /** The foreign call that raises during an invocation. */
  datatype Fault = FetchFault | DecodeFault | EncodeFault | StoreFault | PersistFault

  /** How an invocation ends: guarded (Python returns `None`), with the thumbnail URL, or by an exception. */
  datatype Outcome = Skipped | Uploaded(url: string) | Raised(fault: Fault)

  datatype Invocation = Invocation(effects: seq<Effect>, outcome: Outcome)

  /** Suffix the guard tests for; written separately from the naming policy's suffix in the source. */
  const GuardSuffix: string := "_thumbnail.png"

  const PngContentType: string := "image/png"
  const PublicRead: string := "public-read"

  /** The guard: keys already carrying the thumbnail suffix are not processed. */
  function IsThumbnailKey(key: string): (b: bool)
    ensures b <==> |GuardSuffix| <= |key| && key[..|key| - |GuardSuffix|] + GuardSuffix == key
  {
    EndsWith(key, GuardSuffix)
  }

  /**
   Loop freedom rests on the literal the guard tests and the suffix the naming
   policy appends being the same text.
   */
  lemma GuardMatchesNaming()
    ensures GuardSuffix == ThumbnailSuffix
  {
  }

  /** Number of calls of kind `k` in `effects`. */
  function Count(effects: seq<Effect>, k: Kind): nat
  {
    if |effects| == 0 then 0
    else (if effects[0].CallKind() == k then 1 else 0) + Count(effects[1..], k)
  }

  /** URL recorded for the thumbnail stored in `bucket` under `key`. */
  function ThumbnailUrl(endpoint: string, bucket: string, key: string): (url: string)
    ensures |endpoint| <= |url| && url[..|endpoint|] == endpoint
    ensures EndsWith(url, "/" + key)
  {
    var url := endpoint + "/" + bucket + "/" + key;
    assert url == (endpoint + "/" + bucket) + ("/" + key);
    url
  }

  /** Whether `fault` names one of the calls made while uploading the thumbnail. */
  predicate RaisedByUpload(fault: Option<Fault>) {
    fault == Some(EncodeFault) || fault == Some(StoreFault) || fault == Some(PersistFault)
  }

  /** Every fault other than the fetch and decode faults arises during the upload. */
  lemma UploadFaults(fault: Option<Fault>)
    requires fault != Some(FetchFault) && fault != Some(DecodeFault)
    ensures fault.None? || RaisedByUpload(fault)
  {
    if fault.Some? {
      match fault.value
      case EncodeFault =>
      case StoreFault =>
      case PersistFault =>
    }
  }

  /**
   Encode the thumbnail, write it publicly readable as PNG to `bucket`/`key`,
   then write one record holding its URL and the original size. Faults of calls
   made before this step do not arise here.
   */
  function UploadToStore(endpoint: string, bucket: string, key: string, size: nat, fault: Option<Fault>): (inv: Invocation)
    ensures Count(inv.effects, StoreCall) == (if fault == Some(EncodeFault) then 0 else 1)
    ensures Count(inv.effects, PersistCall) == (if fault == Some(EncodeFault) || fault == Some(StoreFault) then 0 else 1)
    ensures Count(inv.effects, FetchCall) == 0
    ensures inv.outcome.Uploaded? <==> !RaisedByUpload(fault)
    ensures forall e :: e in inv.effects && e.Store? ==>
              e == Store(bucket, key, PngContentType, PublicRead)
    ensures forall e :: e in inv.effects && e.Persist? ==>
              e == Persist(ThumbnailUrl(endpoint, bucket, key), size) && inv.effects[0].Store?
    ensures inv.outcome.Uploaded? ==> Persist(inv.outcome.url, size) in inv.effects
    ensures inv.outcome.Raised? ==> fault == Some(inv.outcome.fault)
    ensures !inv.outcome.Skipped?
  {
    var store := Store(bucket, key, PngContentType, PublicRead);
    var url := ThumbnailUrl(endpoint, bucket, key);
    if fault == Some(EncodeFault) then Invocation([], Raised(EncodeFault))
    else if fault == Some(StoreFault) then
      assert [store][1..] == [];
      Invocation([store], Raised(StoreFault))
    else
      var effects := [store, Persist(url, size)];
      assert effects[1..][1..] == [];
      if fault == Some(PersistFault) then Invocation(effects, Raised(PersistFault))
      else Invocation(effects, Uploaded(url))
  }

  /**
   The body of the handler past the guard: fetch and decode the object, then
   upload its thumbnail under the new name in the same bucket.
   */
  function Generate(endpoint: string, ev: Event, fault: Option<Fault>): (inv: Invocation)
    ensures inv.effects != [] && inv.effects[0] == Fetch(ev.bucket, ev.key)
    ensures Count(inv.effects, FetchCall) == 1
    ensures Count(inv.effects, StoreCall) ==
              (if fault in {Some(FetchFault), Some(DecodeFault), Some(EncodeFault)} then 0 else 1)
    ensures Count(inv.effects, PersistCall) ==
              (if fault in {Some(FetchFault), Some(DecodeFault), Some(EncodeFault), Some(StoreFault)} then 0 else 1)
    ensures forall e :: e in inv.effects[1..] ==> !e.Fetch?
    ensures forall e :: e in inv.effects && e.Store? ==>
              e == Store(ev.bucket, NewFilename(ev.key), PngContentType, PublicRead)
    ensures forall e :: e in inv.effects && e.Persist? ==>
              e == Persist(ThumbnailUrl(endpoint, ev.bucket, NewFilename(ev.key)), ev.size)
    ensures inv.outcome.Uploaded? ==>
              inv.outcome.url == ThumbnailUrl(endpoint, ev.bucket, NewFilename(ev.key))
              && Persist(inv.outcome.url, ev.size) in inv.effects
    ensures !inv.outcome.Skipped?
    ensures inv.outcome.Raised? <==> fault.Some?
    ensures fault.Some? ==> inv.outcome == Raised(fault.value)
  {
    var fetch := Fetch(ev.bucket, ev.key);
    if fault == Some(FetchFault) || fault == Some(DecodeFault) then
      assert [fetch][1..] == [];
      Invocation([fetch], Raised(fault.value))
    else
      UploadFaults(fault);
      var up := UploadToStore(endpoint, ev.bucket, NewFilename(ev.key), ev.size, fault);
      CountAppend([fetch], up.effects, FetchCall);
      CountAppend([fetch], up.effects, StoreCall);
      CountAppend([fetch], up.effects, PersistCall);
      assert ([fetch] + up.effects)[1..] == up.effects;
      Invocation([fetch] + up.effects, up.outcome)
  }

  /** The handler for one upload notification. */
  function Handle(endpoint: string, ev: Event, fault: Option<Fault>): (inv: Invocation)
    ensures inv.effects == [] <==> IsThumbnailKey(ev.key)
    ensures inv.outcome.Skipped? <==> IsThumbnailKey(ev.key)
    ensures Count(inv.effects, FetchCall) <= 1
    ensures Count(inv.effects, StoreCall) <= 1
    ensures Count(inv.effects, PersistCall) <= Count(inv.effects, StoreCall)
    ensures forall e :: e in inv.effects && e.Fetch? ==> e == Fetch(ev.bucket, ev.key)
    ensures forall e :: e in inv.effects && e.Store? ==>
              e == Store(ev.bucket, NewFilename(ev.key), PngContentType, PublicRead)
    ensures forall e :: e in inv.effects && e.Persist? ==>
              e == Persist(ThumbnailUrl(endpoint, ev.bucket, NewFilename(ev.key)), ev.size)
    ensures inv.outcome.Uploaded? ==>
              inv.outcome.url == ThumbnailUrl(endpoint, ev.bucket, NewFilename(ev.key))
              && Persist(inv.outcome.url, ev.size) in inv.effects
    ensures !IsThumbnailKey(ev.key) ==>
              (inv.outcome.Raised? <==> fault.Some?) && (fault.Some? ==> inv.outcome == Raised(fault.value))
    ensures !IsThumbnailKey(ev.key) ==>
              Count(inv.effects, StoreCall) ==
                (if fault in {Some(FetchFault), Some(DecodeFault), Some(EncodeFault)} then 0 else 1)
    ensures !IsThumbnailKey(ev.key) ==>
              inv.effects[0] == Fetch(ev.bucket, ev.key) && Count(inv.effects, FetchCall) == 1
  {
    if IsThumbnailKey(ev.key) then Invocation([], Skipped)
    else
      var inv := Generate(endpoint, ev, fault);
      assert inv.effects == [inv.effects[0]] + inv.effects[1..];
      inv
  }

  /** Counting distributes over concatenation. */
  lemma {:induction false} CountAppend(a: seq<Effect>, b: seq<Effect>, k: Kind)
    ensures Count(a + b, k) == Count(a, k) + Count(b, k)
  {
    if |a| > 0 {
      assert (a + b)[1..] == a[1..] + b;
      CountAppend(a[1..], b, k);
    } else {
      assert a + b == b;
    }
  }

  /**
   Loop freedom: the upload notification caused by any object the handler
   writes is guarded, whatever its size, the endpoint or the faults of the
   second run, so one upload causes at most one generation.
   */
  lemma FollowUpIsSkipped(endpoint: string, ev: Event, fault: Option<Fault>, e: Effect,
                          endpoint': string, size': nat, fault': Option<Fault>)
    requires e in Handle(endpoint, ev, fault).effects && e.Store?
    ensures Handle(endpoint', Event(e.bucket, e.key, size'), fault') == Invocation([], Skipped)
  {
    GuardMatchesNaming();
  }

  /**
   A processed upload with no fault fetches the object, stores exactly one
   thumbnail in the same bucket under the new name, writes exactly one record
   whose URL ends in that name, and returns that URL.
   */
  lemma SuccessfulInvocation(endpoint: string, ev: Event)
    requires !IsThumbnailKey(ev.key)
    ensures var key' := NewFilename(ev.key);
            var url := ThumbnailUrl(endpoint, ev.bucket, key');
            && Handle(endpoint, ev, None) == Invocation(
                 [Fetch(ev.bucket, ev.key), Store(ev.bucket, key', PngContentType, PublicRead), Persist(url, ev.size)],
                 Uploaded(url))
            && EndsWith(url, "/" + key')
  {
  }

  /**
   A record write is issued exactly when the guard lets the key through and
   neither the fetch, the image decoding and encoding, nor the object write
   raised; each record write directly follows the object write it describes.
   The record write itself succeeded exactly when the run returns a URL.
   */
  lemma RecordOnlyAfterStore(endpoint: string, ev: Event, fault: Option<Fault>)
    ensures var inv := Handle(endpoint, ev, fault);
            Count(inv.effects, PersistCall) == 1 <==>
              !IsThumbnailKey(ev.key) &&
              fault !in {Some(FetchFault), Some(DecodeFault), Some(EncodeFault), Some(StoreFault)}
    ensures var effects := Handle(endpoint, ev, fault).effects;
            forall i :: 0 <= i < |effects| && effects[i].Persist? ==>
              0 < i && effects[i - 1] == Store(ev.bucket, NewFilename(ev.key), PngContentType, PublicRead)
    ensures Handle(endpoint, ev, fault).outcome.Uploaded? <==> !IsThumbnailKey(ev.key) && fault.None?
  {
  }

  /**
   An object write is issued exactly when the guard lets the key through and
   neither the fetch nor the image decoding and encoding raised.
   */
  lemma StoreOnlyAfterImageWork(endpoint: string, ev: Event, fault: Option<Fault>)
    ensures var inv := Handle(endpoint, ev, fault);
            Count(inv.effects, StoreCall) == 1 <==>
              !IsThumbnailKey(ev.key) && fault !in {Some(FetchFault), Some(DecodeFault), Some(EncodeFault)}
  {
  }

  /** The handler never overwrites the object it was notified about. */
  lemma ThumbnailNeverOverwritesSource(endpoint: string, ev: Event, fault: Option<Fault>)
    ensures forall e :: e in Handle(endpoint, ev, fault).effects && e.Store? ==> e.key != ev.key
  {
  }

  /** Within one endpoint and bucket, distinct thumbnail keys get distinct record URLs. */
  lemma ThumbnailUrlInjective(endpoint: string, bucket: string, key1: string, key2: string)
    requires ThumbnailUrl(endpoint, bucket, key1) == ThumbnailUrl(endpoint, bucket, key2)
    ensures key1 == key2
  {
    var prefix := endpoint + "/" + bucket + "/";
    assert ThumbnailUrl(endpoint, bucket, key1) == prefix + key1;
    assert ThumbnailUrl(endpoint, bucket, key2) == prefix + key2;
    assert key1 == (prefix + key1)[|prefix|..];
    assert key2 == (prefix + key2)[|prefix|..];
  }

  /** Worked example: `images/cat.jpg` of 50000 bytes uploaded to bucket `b`. */
  lemma CatExample(endpoint: string)
    ensures var inv := Handle(endpoint, Event("b", "images/cat.jpg", 50000), None);
            && |inv.effects| == 3
            && inv.effects[0] == Fetch("b", "images/cat.jpg")
            && inv.effects[1] == Store("b", "images/cat" + "_thumbnail.png", "image/png", "public-read")
            && inv.effects[2] == Persist(ThumbnailUrl(endpoint, "b", "images/cat" + "_thumbnail.png"), 50000)
            && inv.outcome == Uploaded(ThumbnailUrl(endpoint, "b", "images/cat" + "_thumbnail.png"))
  {
    var ev := Event("b", "images/cat.jpg", 50000);
    assert !IsThumbnailKey(ev.key) by {
      CatKeyExample();
      GuardMatchesNaming();
    }
    assert NewFilename(ev.key) == "images/cat" + "_thumbnail.png" by {
      CatKeyExample();
    }
    SuccessfulInvocation(endpoint, ev);
  }
}

=== FILE: text.dfy ===
/**
 String operations of Python's `str` that the handler relies on, over
 `string` (a `seq<char>`): `endswith`, a right-to-left search for one
 character and `rsplit(sep, 1)`, plus `join` to state `rsplit`'s round trip.
 */
module Text {
  import opened Wrappers

  /** Python's `s.endswith(suffix)`: `suffix` is a tail of `s`. */
  function EndsWith(s: string, suffix: string): (b: bool)
    ensures b <==> |suffix| <= |s| && forall i :: 0 <= i < |suffix| ==> s[|s| - |suffix| + i] == suffix[i]
    ensures b ==> s == s[..|s| - |suffix|] + suffix
  {
    |suffix| <= |s| && s[|s| - |suffix|..] == suffix
  }

  /** Position of the last occurrence of `c` in `s`, found by scanning from the right. */
  function LastIndexOf(s: string, c: char): (r: Option<nat>)
    ensures r.None? <==> c !in s
    ensures r.Some? ==> r.value < |s| && s[r.value] == c && c !in s[r.value + 1..]
  {
    if |s| == 0 then None
    else if s[|s| - 1] == c then Some(|s| - 1)
    else
      var r := LastIndexOf(s[..|s| - 1], c);
      assert s == s[..|s| - 1] + [s[|s| - 1]];
      assert r.Some? ==> s[r.value + 1..] == s[..|s| - 1][r.value + 1..] + [s[|s| - 1]];
      r
  }

  /**
   Python's `s.rsplit(sep, 1)`: one part (`s` itself) when `sep` does not occur,
   otherwise the text before the last `sep` and the text after it.
   */
  function RSplitOnce(s: string, sep: char): (parts: seq<string>)
    ensures |parts| == 1 || |parts| == 2
    ensures |parts| == 1 <==> sep !in s
    ensures |parts| == 1 ==> parts[0] == s
    ensures |parts| == 2 ==> parts[0] + [sep] + parts[1] == s && sep !in parts[1]
  {
    match LastIndexOf(s, sep)
    case None => [s]
    case Some(i) =>
      assert s == s[..i] + [sep] + s[i + 1..];
      [s[..i], s[i + 1..]]
  }

  /** Python's `sep.join(parts)` for a one-character separator. */
  function JoinWith(parts: seq<string>, sep: char): string
  {
    if |parts| == 0 then ""
    else if |parts| == 1 then parts[0]
    else parts[0] + [sep] + JoinWith(parts[1..], sep)
  }

  /** Joining the parts of `rsplit` with the same separator gives back the input. */
  lemma RSplitJoin(s: string, sep: char)
    ensures JoinWith(RSplitOnce(s, sep), sep) == s
  {
  }

  /**
   `rsplit` splits at the LAST separator: whenever `s` is `a`, a separator and a
   separator-free `b`, the split is exactly `[a, b]`.
   */
  lemma RSplitAtLast(s: string, sep: char, a: string, b: string)
    requires s == a + [sep] + b
    requires sep !in b
    ensures RSplitOnce(s, sep) == [a, b]
  {
    var parts := RSplitOnce(s, sep);
    var i := |parts[0]|;
    assert s[|a|] == sep;
    assert s[i] == sep && sep !in s[i + 1..] by { assert s == parts[0] + [sep] + parts[1]; }
    assert sep !in s[|a| + 1..] by { assert s[|a| + 1..] == b; }
    assert parts[0] == s[..i];
    assert a == s[..|a|];
    assert parts[1] == s[i + 1..];
  }
}

=== FILE: wrappers.dfy ===
/** The optional-value type used across the model. */
module Wrappers {

  /** A value that may be absent. */
  datatype Option<+T> = None | Some(value: T)
}
